=== FILE: README.md ===
# UDN news scraper — a Dafny model of its core

`UDNNewsScraper.py` searches the UDN news archive (udndata.com), walks the pages of search results
collecting article links, opens each article and turns it into a record of news ID, title, date
and content. This project models the decisions the scraper makes along the way. Browser reads are
inputs to the model. The project proves what the records and the collected links are:

- **Pagination** (`pagination.dfy`):
  - the result count read from the page source through the banner
    `共搜尋到\s*<span class="mark">(\d+)</span>筆資料`;
  - the number of pages computed from it, the page size of 20 and `max_articles`;
  - the optional `max_pages` cap, which applies only when it is positive.
- **Link collection** (`links.dfy`, `collector.dfy`):
  - each later results page is opened at a URL built from the current one. Every `page=<digits>`
    is rewritten, or `?page=n` / `&page=n` is appended;
  - root-relative hrefs are resolved against `https://udndata.com`;
  - the inner and outer loops stop once `max_articles` links are in hand;
  - a final slice `[:min(len, max_articles)]` is applied.
- **Article extraction** (`article.dfy`):
  - link normalisation;
  - the news ID from `news_id=(\d+)`, falling back to a trailing `/(\d+)$`, then "Unknown ID";
  - the title from the first `h1` (even when empty) or a numbered fallback;
  - the date: the first `\d{4}-\d{2}-\d{2}` in the byline;
  - the content: the first of `article`, `div.article`, `div.content`, `div.story` whose
    non-empty paragraphs join to a non-empty text. Otherwise the body text (even when empty), or
    "Content extraction failed";
  - the two failure records, for a page that cannot be opened and for a missing href. Neither has
    a News ID.
- **The run** (`crawl.dfy`): count, plan, collect and extract, in order, with no records when the
  search or the collection raises.

Support modules:

- `wrappers.dfy`: `Option`, `Result`, and `Lookup`, a browser read that finds, misses or raises.
- `text.dfy`: digits, decimal numerals, whitespace, and `"\n".join` / `split("\n")`.
- `patterns.dfy`: the regular expressions as string functions with Python's leftmost-match
  `re.search` semantics.

The browser is modelled as functions:

- `site: string -> Visit` says what opening an article URL shows;
- `listing: string -> ListingVisit` says what a results page shows at a URL;
- the search itself is a `SearchOutcome`: the results page source and page 1, or an error.

## Model

| member | source | states |
|---|---|---|
| Text.SplitJoinLines | UDNNewsScraper.py:130 | joining one or more lines without line breaks with "\n" and splitting the result on "\n" gives back exactly those lines |
| Text.ParseDecimalOfDecimal | UDNNewsScraper.py:258 | `int()` of the decimal numeral of n is n |
| Text.DecimalOfParseDecimal | UDNNewsScraper.py:258 | a digit string without a leading zero is the numeral of the number it denotes |
| Patterns.Search | UDNNewsScraper.py:81 | `re.search` finds the leftmost position where the pattern matches, and none exists when it finds nothing |
| Patterns.KeyedDigitsHead | UDNNewsScraper.py:81 | `key(\d+)` captures the maximal nonempty digit run right after the key, and matches exactly when a digit follows the key |
| Patterns.TrailingId | UDNNewsScraper.py:85 | `/(\d+)$` captures the digits after the last slash when only digits follow it, allowing one final newline, and fails exactly when no slash is followed only by digits |
| Links.ArticleUrl | UDNNewsScraper.py:54-58 | an article link is opened at a URL starting with "http": root-relative links get the site prefixed, other non-http links get the site and a slash, http links are kept |
| Links.ArticleUrlIdempotent | UDNNewsScraper.py:54-58 | normalising an article URL a second time changes nothing |
| Links.ListingHrefThenArticleUrl | UDNNewsScraper.py:311-312 | resolving a listing href before normalising it as an article link leads to the same article URL |
| Links.ListingHref | UDNNewsScraper.py:311-312 | a root-relative listing href gets the site prefixed; any other href, including an empty or missing one, is kept |
| Links.ReplacePageNumbers | UDNNewsScraper.py:295 | `re.sub` leaves a URL without `page=<digits>` unchanged; otherwise it copies the URL up to the leftmost match, replaces that match, and carries on after its digits |
| Links.NextPageUrl | UDNNewsScraper.py:294-298 | a URL without `page=` is extended, with `&` as the separator exactly when it has a `?` |
| Links.ReplaceUpToMatch | UDNNewsScraper.py:295 | the rewrite copies everything before a `page=<digits>` and replaces that match by the new text |
| Links.NoMatchInUnpagedUrl | UDNNewsScraper.py:297-298 | in a URL without `page=`, followed by `&` or `?` and anything else, no `page=<digits>` match starts inside the original URL, so the appended parameter is the leftmost one |
| Links.NextPageUrlDesignatesPage | UDNNewsScraper.py:291-298 | the URL built for page n designates page n (its leftmost `page=<digits>` reads n); when the URL has `page=` only without digits it is reused unchanged |
| Pagination.TotalResults | UDNNewsScraper.py:257-258 | no result-count banner in the page source means a total of 0 |
| Pagination.TotalResultsOfBanner | UDNNewsScraper.py:257-258 | a page source whose leftmost banner reports n, after any text in which no banner starts and with any whitespace inside it, reports n results |
| Pagination.BannerFreePrefix | UDNNewsScraper.py:257 | no banner starts in text without the character 共, so the count is read whenever the HTML before the banner lacks 共 |
| Pagination.CalculatedPages | UDNNewsScraper.py:262-266 | fewer than 20 wanted articles means one page even with no results; otherwise the fewest pages of 20 that hold min(total, max_articles) results |
| Pagination.TotalPages | UDNNewsScraper.py:269-272 | a positive page cap gives the minimum of cap and computed pages; a missing, zero or negative cap leaves the count alone |
| Article.NewsId | UDNNewsScraper.py:79-89 | the ID is the leftmost `news_id=` digits, else the trailing number, else "Unknown ID" exactly when neither exists; it is always that sentinel or a digit string |
| Article.TrailingIdOfPath | UDNNewsScraper.py:85-87 | a URL ending in `/<n>` has n as its fallback ID |
| Article.TitleOf | UDNNewsScraper.py:92-100 | the title is the heading's text, even when empty; a missing or unreadable heading gives "Article <index> (title extraction failed)" |
| Article.DateIn | UDNNewsScraper.py:106-107 | the date is the leftmost `dddd-dd-dd` in the byline, and "Unknown date" exactly when none occurs |
| Article.DateOf | UDNNewsScraper.py:103-109 | a byline that is missing or raises gives "Unknown date"; one that reads gives its leftmost date |
| Article.ParagraphText | UDNNewsScraper.py:124-130 | a container's text is empty exactly when all its paragraphs are |
| Article.NonEmpty | UDNNewsScraper.py:126-129 | the kept paragraphs are non-empty paragraphs of the container, and none are kept exactly when all are empty |
| Article.NonEmptyOfConcat | UDNNewsScraper.py:126-129 | filtering the paragraphs part by part gives the same as filtering them all at once |
| Article.NonEmptyKeeps | UDNNewsScraper.py:126-129 | every non-empty paragraph is kept, right after the kept paragraphs that precede it |
| Article.NonEmptyDrops | UDNNewsScraper.py:126-129 | every empty paragraph is dropped and nothing else changes |
| Article.ParagraphLines | UDNNewsScraper.py:124-130 | when no paragraph holds a line break and at least one is non-empty, the lines of a container's text are exactly its non-empty paragraphs, in order |
| Article.SelectFrom | UDNNewsScraper.py:121-132 | the selector walk stops at the first selector with text or the first that raises, having passed every earlier one, and runs out exactly when every selector is passed |
| Article.ContentOf | UDNNewsScraper.py:111-138 | the content is decided by the first selector not passed (its text, or the failure sentinel if it raised); with all passed, the body text or the sentinel; it is empty exactly when all are passed and the body is empty |
| Article.FailureRecord | UDNNewsScraper.py:72-76 | a failure record has no news ID, the date "Unknown date", the numbered title for the failed stage, and content "Content extraction failed: " followed by the error |
| Article.FetchArticle | UDNNewsScraper.py:53-152 | a missing href gives the processing failure record and a failed navigation the navigation one, both without a news ID; otherwise the record has the news ID of the normalised URL and the title, date and content of the page; the date is always "Unknown date" or `dddd-dd-dd` |
| Collector.PagesOpened | UDNNewsScraper.py:286-324 | the page loop opens pages up to the first page after which it does not move on (`MovesOn`: pages so far read, and fewer than max_articles links), or all of them |
| Collector.Capped | UDNNewsScraper.py:315-320 | the inner loop keeps a prefix of the links, all of them below the cap and exactly the cap otherwise |
| Collector.PrefixTo | UDNNewsScraper.py:327 | Python's slice `[:stop]` keeps `min(stop, len)` items, or `len + stop` items for a negative stop, from the front |
| Collector.AppendAnchors | UDNNewsScraper.py:305-320 | the anchors of one page are appended, resolved, in order, stopping as soon as the cap is reached |
| Collector.CollectPage | UDNNewsScraper.py:291-324 | one iteration of the page loop opens the next page at the rewritten URL and either fails, moves on, or stops with enough links |
| Collector.GatherLinks | UDNNewsScraper.py:286-324 | the page loop gathers the links of the opened pages, capped |
| Collector.CollectLinks | UDNNewsScraper.py:286-327 | link collection with the final clamp hands on at most max_articles links (none for a cap that is not positive); they are the first links of the planned pages in page order whenever those pages all read; for a positive cap the clamp removes nothing; a failure is the error of the first page that could not be read; once pages 1 to k already hold max_articles links, the links handed on are the first max_articles of them, whatever later pages would show |
| Collector.LinksThroughGrows | UDNNewsScraper.py:315 | links of later pages are only appended after those of earlier pages |
| Collector.FailurePersists | UDNNewsScraper.py:301-305 | once a results page cannot be read, no later page changes the outcome |
| Collector.Collected | UDNNewsScraper.py:318-327 | the links handed on never exceed max_articles, and are none when max_articles is not positive; collection fails exactly when gathering does |
| Collector.Gathered | UDNNewsScraper.py:286-324 | before the clamp, no pages means no links, and the links never exceed the count at which the inner loop stops |
| Collector.LinksThroughFailsWithLastPage | UDNNewsScraper.py:291-305 | reading pages 1 to k fails exactly when page k is not reached or cannot be read, with that page's error |
| Collector.LinksThroughReadsEveryPage | UDNNewsScraper.py:291-305 | when pages 1 to k were read, every one of them was reached and read |
| Collector.ClampKeepsGathered | UDNNewsScraper.py:327 | for a positive max_articles the final clamp removes nothing |
| Collector.CollectedInListingOrder | UDNNewsScraper.py:286-327 | when every planned page reads, the links handed on are the first links of the results pages, in page order |
| Collector.CollectedStopsAtCap | UDNNewsScraper.py:318-327 | once pages 1 to k hold at least max_articles links, the links handed on are the first max_articles of them, whatever later pages would show or whether they read at all |
| Collector.OpenedBeforeCap | UDNNewsScraper.py:318-324 | once pages 1 to k hold at least max_articles links, the loop stops at or before page k, and the links it then holds are a prefix of those of pages 1 to k with at least max_articles entries |
| Collector.CollectedAllUnderCap | UDNNewsScraper.py:318-327 | when fewer than max_articles links are handed on, they are all links of all planned pages |
| Collector.CollectionFailureIsFirstPageError | UDNNewsScraper.py:286-305 | a failed collection carries the error of the first results page that could not be read |
| Crawl.ExtractArticles | UDNNewsScraper.py:336-339 | one record per link, the i-th fetched as article i + 1 |
| Crawl.Scrape | UDNNewsScraper.py:255-371 | the run yields the records of the collected links, none when max_articles is not positive, at most max_articles otherwise |
| Crawl.RunResult | UDNNewsScraper.py:318-371 | a run yields nothing when the search or the link collection fails; otherwise exactly one record per collected link, the i-th being the article fetched from link i as number i + 1; at most max_articles records, and none for a cap that is not positive |
| Crawl.RunDatesWellFormed | UDNNewsScraper.py:103-109 | every record of a run has "Unknown date" or a `dddd-dd-dd` date |
| Crawl.RunCoversAllPagesUnderCap | UDNNewsScraper.py:286-339 | when all planned pages open and hold fewer links than the cap, the run has one record per link of those pages, in order |

## Left out

- The Playwright lifecycle is not modelled: browser start-up, headless mode, timeouts, `asyncio.sleep` and `nest_asyncio`. Browser reads are modelled as functions that find, miss or raise.
- The login and search forms (lines 186-242) are not modelled. The search is an input `SearchOutcome`: an error, or the results page source together with page 1.
- The `div.message` text read at lines 252-253 is never used by the code, so it is not modelled.
- The pandas DataFrame and CSV output (lines 353-371) are not modelled. The run yields the list of records, with an empty list standing for the empty frame.
- The partial-data return at lines 363-370 is not modelled separately. In the model, only the search and the link collection can raise, and both do so before any record exists, so the run then yields nothing. In the source the handler can also be reached after records exist, through the progress callback at line 350 or the CSV write at line 356. There it returns the records, or raises again if the second CSV write at line 368 fails. The model lacks those paths only because callbacks and CSV output are left out.
- The handler at lines 340-346 is not modelled. Every failure inside `_fetch_article_content` is caught there (lines 146-152), and `news_data.append` does not raise.
- Progress callbacks, `print` output and the `finally` block closing the browser are not modelled. The model takes callbacks not to raise. A raising callback at line 62 would give the processing failure record, and one at line 98 the fallback title.
- Collector.AppendAnchors: a results page is read whole, and either every anchor reads or the page fails. The source reads anchors one by one (lines 306-308) and stops at the cap, so an anchor that raises after the cap is reached is never read. The model has no such page. A page whose unreadable anchor lies beyond the cap must be given as its readable prefix, and one whose unreadable anchor lies before the cap as `ListingFailed`. Per-anchor failure would make the links of a page depend on `max_articles` throughout the collector.
- Redirects are modelled only through the URL the browser landed on, which is part of `ListingPage`.
- Patterns.KeyedDigitsHead: `\d` is taken as the ASCII digits. Python's `\d` also matches other Unicode decimal digits, such as fullwidth ０-９.
- Patterns.TrailingId: `/(\d+)$` matches ASCII digits only. Python also accepts a URL ending in other Unicode decimal digits.
- Article.NewsId: inherits the ASCII-only `\d` of both patterns it uses.
- Article.DateIn: `\d{4}-\d{2}-\d{2}` matches ASCII digits only. A byline with fullwidth digits gives "Unknown date" here, while Python finds the date.
- Pagination.TotalResults: the count is read with ASCII digits only. Python's `\d` and `int()` also accept other Unicode decimal digits.
- Pagination.CalculatedPages: computed in exact integers. The source divides as floats, which differs only for totals beyond 2^53.
- The wrappers `run_scraper` and `scrape_news` (lines 393-440) and `close` (lines 384-391) are not modelled. They only create the scraper, set up the event loop and close the browser.
- `install_browsers.py` and the UI file are not modelled. They do not take part in scraping.

=== FILE: article.dfy ===
/** Turning one article link into a record: the URL it is opened at, the news ID read from that
    URL, and the title, date and content read from the page, each with its own fallback. */
module Article {
  import opened Wrappers
  import opened Text
  import opened Patterns
  import opened Links

  /** What the scraper reads from an opened article page. Each read can find the element
      (`Found`), find nothing (`Absent`) or raise (`Raises`).
      heading: the inner text of the first `h1`.
      byline: the inner text of the first `span.story-source`.
      containers: for a content selector, the inner texts of the `p` elements under the first
        element it matches; a selector that is not a key matches nothing.
      body: the inner text of `body`. */
  datatype ArticlePage = ArticlePage(
    heading: Lookup<string>,
    byline: Lookup<string>,
    containers: map<string, Lookup<seq<string>>>,
    body: Lookup<string>)

  /** Opening an article URL either shows a page or fails with an error message. */
  datatype Visit = Loaded(page: ArticlePage) | NavigationFailed(error: string)

  /** One row of the result. Records of articles that could not be opened have no news ID. */
  datatype ArticleRecord = ArticleRecord(newsId: Option<string>, title: string, date: string, content: string)

  const UnknownId: string := "Unknown ID"
  const UnknownDate: string := "Unknown date"
  const ContentFailed: string := "Content extraction failed"

  /** The elements tried for the article text, in order. */
  const ContentSelectors: seq<string> := ["article", "div.article", "div.content", "div.story"]

  /** The pattern `news_id=(\d+)`. */
  const NewsIdPattern: Pattern := KeyedDigits("news_id=")

  /** Python's message for calling `startswith` on a missing href. */
  const MissingLinkError: string := "'NoneType' object has no attribute 'startswith'"

  /** The news ID of an article URL: the digits of its leftmost `news_id=<digits>`, otherwise the
      number the URL ends in after a slash, otherwise "Unknown ID". */
  function NewsId(url: string): (id: string)
    ensures id == UnknownId || (|id| >= 1 && AllDigits(id))
    ensures Search(NewsIdPattern, url).Some? ==> id == Search(NewsIdPattern, url).value.group
    ensures Search(NewsIdPattern, url).None? && TrailingId(url).Some? ==> id == TrailingId(url).value
    ensures id == UnknownId <==> Search(NewsIdPattern, url).None? && TrailingId(url).None?
  {
    SentinelIdIsNotNumber();
    match Search(NewsIdPattern, url)
    case Some(h) =>
      assert MatchAt(NewsIdPattern, url, h.at) == Some(h.group);
      h.group
    case None =>
      match TrailingId(url)
      case Some(d) => d
      case None => UnknownId
  }

  /** "Unknown ID" cannot be mistaken for a numeric ID. */
  lemma {:induction false} SentinelIdIsNotNumber()
    ensures !AllDigits(UnknownId)
  {
    assert !IsDigit(UnknownId[0]);
  }

  /** A path that ends in a slash and a number has that number as its trailing ID. */
  lemma {:induction false} TrailingIdOfPath(prefix: string, n: nat, url: string)
    requires url == prefix + "/" + Decimal(n)
    ensures TrailingId(url) == Some(Decimal(n))
  {
    var numeral := Decimal(n);
    assert AnchoredPart(url) == url by {
      assert url[|url| - 1] == numeral[|numeral| - 1];
    }
    assert url[|prefix| + 1..] == numeral;
    assert SlashNumberAt(url, |prefix|);
    TrailingDigitsAfterSlash(url, |prefix|);
  }

  /** The date in a byline: its leftmost `dddd-dd-dd`, or "Unknown date" when it has none. */
  function DateIn(text: string): (date: string)
    ensures date == UnknownDate || IsIsoDate(date)
    ensures date == UnknownDate <==> forall j :: 0 <= j ==> MatchAt(IsoDate, text, j).None?
    ensures date != UnknownDate ==>
      exists i :: (0 <= i && MatchAt(IsoDate, text, i) == Some(date)
        && forall j :: 0 <= j < i ==> MatchAt(IsoDate, text, j).None?)
  {
    match Search(IsoDate, text)
    case Some(h) => h.group
    case None => UnknownDate
  }

  /** The sentinel itself holds no date. */
  lemma {:induction false} NoDateInSentinel()
    ensures forall j :: 0 <= j ==> MatchAt(IsoDate, UnknownDate, j).None?
  {
    forall j | 0 <= j
      ensures MatchAt(IsoDate, UnknownDate, j).None?
    {
      if j <= 2 {
        assert UnknownDate[j..][..10][0] == UnknownDate[j];
      }
    }
  }

  /** The article date: a missing byline is searched as the text "Unknown date"; a byline that
      cannot be read gives "Unknown date". */
  function DateOf(byline: Lookup<string>): (date: string)
    ensures byline.Found? ==> date == DateIn(byline.value)
    ensures !byline.Found? ==> date == UnknownDate
  {
    match byline
    case Found(text) => DateIn(text)
    case Absent =>
      NoDateInSentinel();
      DateIn(UnknownDate)
    case Raises(_) => UnknownDate
  }

  /** The fallback title of an article whose status is described by `what`. */
  function IndexedTitle(index: nat, what: string): string {
    "Article " + Decimal(index) + " (" + what + ")"
  }

  /** The article title: the heading's text, even when empty, or a numbered fallback. */
  function TitleOf(heading: Lookup<string>, index: nat): (title: string)
    ensures heading.Found? ==> title == heading.value
    ensures !heading.Found? ==> title == IndexedTitle(index, "title extraction failed")
    ensures !heading.Found? ==> StartsWith(title, "Article " + Decimal(index))
  {
    if heading.Found? then heading.value else IndexedTitle(index, "title extraction failed")
  }

  /** The non-empty strings of `ps`, in order. */
  function NonEmpty(ps: seq<string>): (r: seq<string>)
    ensures forall i :: 0 <= i < |r| ==> r[i] != ""
    ensures |r| == 0 <==> forall i :: 0 <= i < |ps| ==> ps[i] == ""
    ensures forall i :: 0 <= i < |r| ==> r[i] in ps
  {
    if |ps| == 0 then []
    else
      var rest := NonEmpty(ps[1..]);
      assert forall i :: 0 <= i < |rest| ==> rest[i] in ps by {
        assert forall s :: s in ps[1..] ==> s in ps;
      }
      if ps[0] != "" then [ps[0]] + rest else rest
  }

  /** Filtering paragraphs part by part gives the same as filtering them all at once. */
  lemma {:induction false} NonEmptyOfConcat(a: seq<string>, b: seq<string>)
    ensures NonEmpty(a + b) == NonEmpty(a) + NonEmpty(b)
    decreases |a|
  {
    if |a| == 0 {
      assert a + b == b;
    } else {
      assert (a + b)[0] == a[0];
      assert (a + b)[1..] == a[1..] + b;
      NonEmptyOfConcat(a[1..], b);
    }
  }

  /** A single paragraph is kept exactly when it is non-empty. */
  lemma {:induction false} NonEmptyOfOne(p: string)
    ensures NonEmpty([p]) == if p == "" then [] else [p]
  {
    assert [p][1..] == [];
  }

  /** Every non-empty paragraph is kept, right after the paragraphs kept before it: the filter
      drops the empty paragraphs and nothing else, and keeps the order. */
  lemma {:induction false} NonEmptyKeeps(ps: seq<string>, i: nat)
    requires i < |ps| && ps[i] != ""
    ensures NonEmpty(ps) == NonEmpty(ps[..i]) + ([ps[i]] + NonEmpty(ps[i + 1..]))
    ensures NonEmpty(ps)[|NonEmpty(ps[..i])|] == ps[i]
  {
    var before, later := NonEmpty(ps[..i]), NonEmpty(ps[i + 1..]);
    var after := [ps[i]] + ps[i + 1..];
    NonEmptyAround(ps, i, after);
    NonEmptyOfConcat([ps[i]], ps[i + 1..]);
    NonEmptyOfOne(ps[i]);
    assert NonEmpty(after) == [ps[i]] + later;
    var whole := before + ([ps[i]] + later);
    assert whole[|before|] == ps[i];
  }

  /** Filtering around paragraph i: the paragraphs before it, then it and those after it. */
  lemma {:induction false} NonEmptyAround(ps: seq<string>, i: nat, after: seq<string>)
    requires i < |ps| && after == [ps[i]] + ps[i + 1..]
    ensures NonEmpty(ps) == NonEmpty(ps[..i]) + NonEmpty(after)
  {
    assert ps == ps[..i] + after;
    NonEmptyOfConcat(ps[..i], after);
  }

  /** Every empty paragraph is dropped without a trace. */
  lemma {:induction false} NonEmptyDrops(ps: seq<string>, i: nat)
    requires i < |ps| && ps[i] == ""
    ensures NonEmpty(ps) == NonEmpty(ps[..i]) + NonEmpty(ps[i + 1..])
  {
    var after := [ps[i]] + ps[i + 1..];
    NonEmptyAround(ps, i, after);
    NonEmptyOfConcat([ps[i]], ps[i + 1..]);
    NonEmptyOfOne(ps[i]);
  }

  /** The text of a container: its non-empty paragraphs, one per line. */
  function ParagraphText(ps: seq<string>): (text: string)
    ensures text == "" <==> forall i :: 0 <= i < |ps| ==> ps[i] == ""
  {
    JoinLines(NonEmpty(ps))
  }

  /** When no paragraph holds a line break, the lines of a container's text are exactly its
      non-empty paragraphs. */
  lemma {:induction false} ParagraphLines(ps: seq<string>)
    requires exists i :: 0 <= i < |ps| && ps[i] != ""
    requires forall k, i :: 0 <= k < |ps| && 0 <= i < |ps[k]| ==> ps[k][i] != '\n'
    ensures SplitLines(ParagraphText(ps)) == NonEmpty(ps)
  {
    var r := NonEmpty(ps);
    forall k, i | 0 <= k < |r| && 0 <= i < |r[k]|
      ensures r[k][i] != '\n'
    {
      var m :| 0 <= m < |ps| && ps[m] == r[k];
    }
    SplitJoinLines(r);
  }

  /** What a content selector yields: its container's text, Absent when nothing matches, or the
      error raised while reading it. */
  function ContainerText(page: ArticlePage, selector: string): Lookup<string> {
    if selector !in page.containers then Absent
    else
      match page.containers[selector]
      case Found(ps) => Found(ParagraphText(ps))
      case Absent => Absent
      case Raises(e) => Raises(e)
  }

  /** The scraper moves past a selector that matches nothing or yields empty text. */
  predicate Passes(page: ArticlePage, selector: string) {
    match ContainerText(page, selector)
    case Found(t) => t == ""
    case Absent => true
    case Raises(_) => false
  }

  /** How the walk over the content selectors ends: at a selector with text, at one that raised,
      or past the last one. */
  datatype Selection = Chosen(index: nat, text: string) | Raised(index: nat) | Exhausted

  /** The walk over `selectors` from position `k`. */
  function SelectFrom(page: ArticlePage, selectors: seq<string>, k: nat): (r: Selection)
    requires k <= |selectors|
    decreases |selectors| - k
    ensures r.Chosen? ==>
      k <= r.index < |selectors| && r.text != "" && ContainerText(page, selectors[r.index]) == Found(r.text)
    ensures r.Raised? ==> k <= r.index < |selectors| && ContainerText(page, selectors[r.index]).Raises?
    ensures r.Chosen? || r.Raised? ==> forall j :: k <= j < r.index ==> Passes(page, selectors[j])
    ensures r.Exhausted? <==> forall j :: k <= j < |selectors| ==> Passes(page, selectors[j])
  {
    if k == |selectors| then Exhausted
    else
      match ContainerText(page, selectors[k])
      case Found(t) => if t != "" then Chosen(k, t) else SelectFrom(page, selectors, k + 1)
      case Absent => SelectFrom(page, selectors, k + 1)
      case Raises(_) => Raised(k)
  }

  /** The text of a read, or the failure sentinel when it found nothing or raised. */
  function TextOr(l: Lookup<string>): string {
    if l.Found? then l.value else ContentFailed
  }

  /** Selector `i` is the first content selector the scraper does not move past. */
  predicate FirstDecisive(page: ArticlePage, i: int) {
    && 0 <= i < |ContentSelectors|
    && !Passes(page, ContentSelectors[i])
    && forall j :: 0 <= j < i ==> Passes(page, ContentSelectors[j])
  }

  /** The article content: decided by the first selector the scraper does not move past (its
      text, or the sentinel when it raised); when every selector is passed, the body text (even
      when empty), or the sentinel when there is no body or it cannot be read. */
  function ContentOf(page: ArticlePage): (content: string)
    ensures forall i :: FirstDecisive(page, i) ==>
      content == TextOr(ContainerText(page, ContentSelectors[i]))
    ensures (forall j :: 0 <= j < |ContentSelectors| ==> Passes(page, ContentSelectors[j])) ==>
      content == TextOr(page.body)
    ensures content == "" <==>
      (forall j :: 0 <= j < |ContentSelectors| ==> Passes(page, ContentSelectors[j])) && page.body == Found("")
  {
    match SelectFrom(page, ContentSelectors, 0)
    case Chosen(i, t) =>
      OnlyFirstDecisive(page, i);
      t
    case Raised(i) =>
      OnlyFirstDecisive(page, i);
      ContentFailed
    case Exhausted => TextOr(page.body)
  }

  /** At most one selector is the first one not passed. */
  lemma {:induction false} OnlyFirstDecisive(page: ArticlePage, c: int)
    requires FirstDecisive(page, c)
    ensures forall i :: FirstDecisive(page, i) ==> i == c
  {
  }

  /** The record of an article that failed at `stage`. */
  function FailureRecord(index: nat, stage: string, error: string): (rec: ArticleRecord)
    ensures rec.newsId.None? && rec.date == UnknownDate
    ensures rec.title == IndexedTitle(index, stage + " failed")
    ensures StartsWith(rec.content, ContentFailed + ": ")
    ensures rec.content[|ContentFailed + ": "|..] == error
  {
    ArticleRecord(None, IndexedTitle(index, stage + " failed"), UnknownDate, ContentFailed + ": " + error)
  }

  /** The record for the `index`-th link, where `site` says what opening a URL shows. A missing
      href fails before the page is opened; a page that cannot be opened yields the navigation
      failure record; otherwise every field has its own fallback and the record has a news ID. */
  function FetchArticle(link: Option<string>, index: nat, site: string -> Visit): (rec: ArticleRecord)
    ensures link.None? ==> rec == FailureRecord(index, "processing", MissingLinkError)
    ensures link.Some? && site(ArticleUrl(link.value)).NavigationFailed? ==>
      rec == FailureRecord(index, "navigation", site(ArticleUrl(link.value)).error)
    ensures rec.newsId.None? <==> link.None? || site(ArticleUrl(link.value)).NavigationFailed?
    ensures rec.newsId.Some? ==> rec.newsId == Some(NewsId(ArticleUrl(link.value)))
    ensures rec.newsId.Some? ==>
      var page := site(ArticleUrl(link.value)).page;
      rec.title == TitleOf(page.heading, index) && rec.date == DateOf(page.byline)
      && rec.content == ContentOf(page)
    ensures rec.date == UnknownDate || IsIsoDate(rec.date)
  {
    match link
    case None => FailureRecord(index, "processing", MissingLinkError)
    case Some(l) =>
      var url := ArticleUrl(l);
      match site(url)
      case NavigationFailed(e) => FailureRecord(index, "navigation", e)
      case Loaded(page) =>
        ArticleRecord(Some(NewsId(url)), TitleOf(page.heading, index), DateOf(page.byline), ContentOf(page))
  }
}

=== FILE: collector.dfy ===
/** Collecting article links from the results pages: page 1 is the page the search shows, each
    further page is opened at a URL built from the previous page's URL, and collection stops as
    soon as enough links are gathered. */
module Collector {
  import opened Wrappers
  import opened Links
  import opened Pagination

  /** A listing anchor (`h2.control-pic a`): its text and its href, which may be missing. */
  datatype Anchor = Anchor(title: string, href: Option<string>)

  /** A results page as shown: the URL the browser landed on and its anchors in page order. */
  datatype ListingPage = ListingPage(url: string, anchors: seq<Anchor>)

  /** Opening a results page and reading its anchors either succeeds or raises. */
  datatype ListingVisit = Listed(page: ListingPage) | ListingFailed(error: string)

  function Max(a: int, b: int): int {
    if a >= b then a else b
  }

  /** The anchors of a page with their hrefs resolved against the site. */
  function Resolved(anchors: seq<Anchor>): (r: seq<Anchor>)
    ensures |r| == |anchors|
  {
    seq(|anchors|, i requires 0 <= i < |anchors| => Anchor(anchors[i].title, ListingHref(anchors[i].href)))
  }

  /** Results page `k` (from 1) as the collector reaches it: page 1 is `first`; page k + 1 is what
      `listing` shows at the URL built for page k + 1 from page k's URL. */
  function PageVisit(first: ListingVisit, listing: string -> ListingVisit, k: nat): ListingVisit
    requires k >= 1
  {
    if k == 1 then first
    else
      match PageVisit(first, listing, k - 1)
      case Listed(p) => listing(NextPageUrl(p.url, k))
      case ListingFailed(e) => ListingFailed(e)
  }

  /** The resolved anchors of pages 1 to k in order, or the error of the first of them that
      fails. */
  function LinksThrough(first: ListingVisit, listing: string -> ListingVisit, k: nat): Result<seq<Anchor>> {
    if k == 0 then Success([])
    else
      match LinksThrough(first, listing, k - 1)
      case Failure(e) => Failure(e)
      case Success(prev) =>
        match PageVisit(first, listing, k)
        case Listed(p) => Success(prev + Resolved(p.anchors))
        case ListingFailed(e) => Failure(e)
  }

  /** The collector goes on from page k to page k + 1 (when there is one) exactly when pages 1 to
      k were read and they hold fewer than `maxArticles` links. */
  predicate MovesOn(first: ListingVisit, listing: string -> ListingVisit, k: nat, maxArticles: int) {
    match LinksThrough(first, listing, k)
    case Success(ls) => |ls| < maxArticles
    case Failure(_) => false
  }

  /** The number of results pages opened when at most `pages` are to be visited: the first page
      the collector does not move on from, or `pages`. */
  function PagesOpened(first: ListingVisit, listing: string -> ListingVisit, pages: nat, maxArticles: int): (v: nat)
    ensures v <= pages && (pages >= 1 ==> v >= 1)
    ensures forall i :: 1 <= i < v ==> MovesOn(first, listing, i, maxArticles)
    ensures 1 <= v < pages ==> !MovesOn(first, listing, v, maxArticles)
  {
    if pages == 0 then 0 else OpenedFrom(first, listing, pages, maxArticles, 1)
  }

  function OpenedFrom(first: ListingVisit, listing: string -> ListingVisit, pages: nat, maxArticles: int, k: nat): (v: nat)
    requires 1 <= k <= pages
    decreases pages - k
    ensures k <= v <= pages
    ensures forall i :: k <= i < v ==> MovesOn(first, listing, i, maxArticles)
    ensures v < pages ==> !MovesOn(first, listing, v, maxArticles)
  {
    if k < pages && MovesOn(first, listing, k, maxArticles) then OpenedFrom(first, listing, pages, maxArticles, k + 1)
    else k
  }

  /** The count of links the inner collection loop stops at: `maxArticles`, but never below one,
      since the check comes after a link is added. */
  function Cap(maxArticles: int): nat {
    if maxArticles >= 1 then maxArticles else 1
  }

  /** At most the first `Cap(maxArticles)` of `ls`. */
  function Capped(ls: seq<Anchor>, maxArticles: int): (r: seq<Anchor>)
    ensures |r| <= Cap(maxArticles) && |r| <= |ls|
    ensures r == ls[..|r|]
    ensures |ls| <= Cap(maxArticles) ==> r == ls
    ensures |ls| > Cap(maxArticles) ==> |r| == Cap(maxArticles)
  {
    if |ls| <= Cap(maxArticles) then ls else ls[..Cap(maxArticles)]
  }

  /** The links gathered before the final clamp: all links of the pages opened, cut off as soon as
      the cap is reached; the error when an opened page fails. */
  function Gathered(first: ListingVisit, listing: string -> ListingVisit, pages: nat, maxArticles: int): (r: Result<seq<Anchor>>)
    ensures pages == 0 ==> r == Success([])
    ensures r.Success? ==> |r.value| <= Cap(maxArticles)
  {
    if pages == 0 then Success([])
    else
      match LinksThrough(first, listing, PagesOpened(first, listing, pages, maxArticles))
      case Failure(e) => Failure(e)
      case Success(ls) => Success(Capped(ls, maxArticles))
  }

  /** Python's `s[:stop]`: a negative stop counts from the end. */
  function PrefixTo<T>(s: seq<T>, stop: int): (r: seq<T>)
    ensures stop >= 0 ==> |r| == Min(stop, |s|)
    ensures stop < 0 ==> |r| == Max(|s| + stop, 0)
    ensures r == s[..|r|]
  {
    if stop >= 0 then s[..Min(stop, |s|)] else s[..Max(|s| + stop, 0)]
  }

  /** The links handed to the article phase: the gathered links clamped to
      `min(len(links), maxArticles)`. */
  function Collected(first: ListingVisit, listing: string -> ListingVisit, pages: nat, maxArticles: int): (r: Result<seq<Anchor>>)
    ensures r.Failure? <==> Gathered(first, listing, pages, maxArticles).Failure?
    ensures r.Success? && maxArticles >= 1 ==> |r.value| <= maxArticles
    ensures r.Success? && maxArticles <= 0 ==> r.value == []
  {
    match Gathered(first, listing, pages, maxArticles)
    case Failure(e) => Failure(e)
    case Success(ls) => Success(PrefixTo(ls, Min(|ls|, maxArticles)))
  }

  /** Reading page k after pages 1 to k - 1 adds its resolved anchors. */
  lemma {:induction false} LinksThroughNext(first: ListingVisit, listing: string -> ListingVisit, k: nat, base: seq<Anchor>, p: ListingPage)
    requires k >= 1
    requires LinksThrough(first, listing, k - 1) == Success(base)
    requires PageVisit(first, listing, k) == Listed(p)
    ensures LinksThrough(first, listing, k) == Success(base + Resolved(p.anchors))
  {
  }

  /** A page that fails after pages 1 to k - 1 were read fails the collection. */
  lemma {:induction false} LinksThroughFailure(first: ListingVisit, listing: string -> ListingVisit, k: nat, base: seq<Anchor>, e: string)
    requires k >= 1
    requires LinksThrough(first, listing, k - 1) == Success(base)
    requires PageVisit(first, listing, k) == ListingFailed(e)
    ensures LinksThrough(first, listing, k) == Failure(e)
  {
  }

  /** Reading pages 1 to k succeeds exactly when page k was reached and read; a failure carries
      the error page k reports, which is that of the first page that could not be read. */
  lemma {:induction false} LinksThroughFailsWithLastPage(first: ListingVisit, listing: string -> ListingVisit, k: nat)
    requires k >= 1
    ensures LinksThrough(first, listing, k).Failure? <==> PageVisit(first, listing, k).ListingFailed?
    ensures LinksThrough(first, listing, k).Failure? ==>
      LinksThrough(first, listing, k).error == PageVisit(first, listing, k).error
  {
    var prev := LinksThrough(first, listing, k - 1);
    if prev.Failure? {
      LinksThroughFailsWithLastPage(first, listing, k - 1);
      assert PageVisit(first, listing, k) == PageVisit(first, listing, k - 1);
    } else {
      match PageVisit(first, listing, k)
      case Listed(p) =>
        assert LinksThrough(first, listing, k) == Success(prev.value + Resolved(p.anchors));
      case ListingFailed(e) =>
        assert LinksThrough(first, listing, k) == Failure(e);
    }
  }

  /** When pages 1 to k were read, every one of them was reached and read. */
  lemma {:induction false} LinksThroughReadsEveryPage(first: ListingVisit, listing: string -> ListingVisit, k: nat)
    requires LinksThrough(first, listing, k).Success?
    ensures forall i :: 1 <= i <= k ==> PageVisit(first, listing, i).Listed?
  {
    forall i | 1 <= i <= k
      ensures PageVisit(first, listing, i).Listed?
    {
      LinksThroughGrows(first, listing, i, k);
    }
  }

  /** When `v` pages are opened and they hold `all`, the gathered links are `all` capped. */
  lemma {:induction false} GatheredAt(first: ListingVisit, listing: string -> ListingVisit, pages: nat, maxArticles: int, v: nat, all: seq<Anchor>)
    requires 1 <= v && PagesOpened(first, listing, pages, maxArticles) == v
    requires LinksThrough(first, listing, v) == Success(all)
    ensures Gathered(first, listing, pages, maxArticles) == Success(Capped(all, maxArticles))
  {
  }

  /** What handling one results page leads to: the collection fails, goes on to the next page,
      or stops with enough links. */
  datatype Step = PageFailed(error: string) | NextPage(links: seq<Anchor>, page: ListingPage) | Enough(links: seq<Anchor>)

  /** Handling page k: open it (page 1 is already shown), then append its anchors. */
  method CollectPage(first: ListingVisit, listing: string -> ListingVisit, maxArticles: int, k: nat,
                     links: seq<Anchor>, current: ListingPage)
    returns (step: Step)
    requires k >= 1
    requires LinksThrough(first, listing, k - 1) == Success(links)
    requires k >= 2 ==> PageVisit(first, listing, k - 1) == Listed(current)
    requires k >= 2 ==> MovesOn(first, listing, k - 1, maxArticles)
    ensures step.PageFailed? ==> LinksThrough(first, listing, k) == Failure(step.error)
    ensures step.PageFailed? || step.Enough? ==> !MovesOn(first, listing, k, maxArticles)
    ensures step.NextPage? ==>
      && MovesOn(first, listing, k, maxArticles)
      && LinksThrough(first, listing, k) == Success(step.links)
      && PageVisit(first, listing, k) == Listed(step.page)
    ensures step.Enough? ==>
      && LinksThrough(first, listing, k).Success?
      && step.links == Capped(LinksThrough(first, listing, k).value, maxArticles)
  {
    var visit := if k == 1 then first else listing(NextPageUrl(current.url, k));
    assert visit == PageVisit(first, listing, k);
    match visit {
      case ListingFailed(e) =>
        LinksThroughFailure(first, listing, k, links, e);
        return PageFailed(e);
      case Listed(p) =>
        LinksThroughNext(first, listing, k, links, p);
        assert |links| < Cap(maxArticles) by {
          if k >= 2 {
            assert MovesOn(first, listing, k - 1, maxArticles);
          }
        }
        var all := links + Resolved(p.anchors);
        var gathered, full := AppendAnchors(links, p.anchors, maxArticles);
        if |gathered| >= maxArticles {
          CappedWhenFull(all, gathered, maxArticles, full);
          return Enough(gathered);
        } else {
          return NextPage(gathered, p);
        }
    }
  }

  /** The collection loop: for each page up to `pages`, open it, append its resolved anchors and
      stop as soon as `maxArticles` links are gathered. */
  method GatherLinks(first: ListingVisit, listing: string -> ListingVisit, pages: nat, maxArticles: int)
    returns (r: Result<seq<Anchor>>)
    ensures r == Gathered(first, listing, pages, maxArticles)
  {
    var links: seq<Anchor> := [];
    var current := ListingPage("", []);
    var k := 1;
    while k <= pages
      invariant 1 <= k <= pages + 1
      invariant k <= pages ==> PagesOpened(first, listing, pages, maxArticles) == OpenedFrom(first, listing, pages, maxArticles, k)
      invariant k > pages >= 1 ==> PagesOpened(first, listing, pages, maxArticles) == pages
      invariant LinksThrough(first, listing, k - 1) == Success(links)
      invariant k >= 2 ==> PageVisit(first, listing, k - 1) == Listed(current)
      invariant k >= 2 ==> MovesOn(first, listing, k - 1, maxArticles)
    {
      var step := CollectPage(first, listing, maxArticles, k, links, current);
      match step {
        case PageFailed(e) =>
          return Failure(e);
        case Enough(gathered) =>
          GatheredAt(first, listing, pages, maxArticles, k, LinksThrough(first, listing, k).value);
          return Success(gathered);
        case NextPage(gathered, p) =>
          links, current := gathered, p;
          k := k + 1;
      }
    }
    if pages >= 1 {
      GatheredAt(first, listing, pages, maxArticles, pages, links);
    }
    return Success(links);
  }

  /** The inner loop over one page's anchors: each is appended with its href resolved, stopping
      right after the link that reaches `maxArticles`. */
  method AppendAnchors(base: seq<Anchor>, anchors: seq<Anchor>, maxArticles: int)
    returns (links: seq<Anchor>, full: bool)
    requires |base| < Cap(maxArticles)
    ensures |links| <= |base| + |anchors| && links == (base + Resolved(anchors))[..|links|]
    ensures full ==> |links| == Cap(maxArticles)
    ensures !full ==> links == base + Resolved(anchors) && |links| < Cap(maxArticles)
  {
    var resolved := Resolved(anchors);
    links := base;
    full := false;
    var j := 0;
    while j < |anchors| && !full
      invariant 0 <= j <= |anchors|
      invariant links == base + resolved[..j]
      invariant full ==> |links| == Cap(maxArticles)
      invariant !full ==> |links| < Cap(maxArticles)
    {
      links := links + [Anchor(anchors[j].title, ListingHref(anchors[j].href))];
      assert resolved[..j + 1] == resolved[..j] + [resolved[j]];
      j := j + 1;
      if |links| >= maxArticles {
        full := true;
      }
    }
    assert links == (base + resolved)[..|links|];
    if !full {
      assert resolved[..j] == resolved;
    }
  }

  /** When a page leaves at least `maxArticles` links, what was kept is the capped prefix. */
  lemma {:induction false} CappedWhenFull(all: seq<Anchor>, links: seq<Anchor>, maxArticles: int, full: bool)
    requires |links| <= |all| && links == all[..|links|]
    requires full ==> |links| == Cap(maxArticles)
    requires !full ==> links == all && |links| < Cap(maxArticles)
    requires |links| >= maxArticles
    ensures links == Capped(all, maxArticles) && |all| >= maxArticles
  {
  }

  /** The whole collection step, ending with the clamp to `maxArticles`. */
  method CollectLinks(first: ListingVisit, listing: string -> ListingVisit, pages: nat, maxArticles: int)
    returns (r: Result<seq<Anchor>>)
    ensures r == Collected(first, listing, pages, maxArticles)
    ensures r.Success? && maxArticles >= 1 ==> |r.value| <= maxArticles
    ensures r.Success? && maxArticles <= 0 ==> r.value == []
    ensures maxArticles >= 1 ==> r == Gathered(first, listing, pages, maxArticles)
    ensures r.Failure? ==> r == LinksThrough(first, listing, pages)
    ensures r.Success? && LinksThrough(first, listing, pages).Success? ==>
      && |r.value| <= |LinksThrough(first, listing, pages).value|
      && r.value == LinksThrough(first, listing, pages).value[..|r.value|]
    ensures maxArticles >= 1 ==>
      forall k :: (1 <= k <= pages && LinksThrough(first, listing, k).Success?
                   && |LinksThrough(first, listing, k).value| >= maxArticles) ==>
        r == Success(LinksThrough(first, listing, k).value[..maxArticles])
  {
    var gathered := GatherLinks(first, listing, pages, maxArticles);
    match gathered {
      case Failure(e) =>
        r := Failure(e);
        CollectionFailureIsFirstPageError(first, listing, pages, maxArticles);
      case Success(ls) =>
        r := Success(PrefixTo(ls, Min(|ls|, maxArticles)));
        if LinksThrough(first, listing, pages).Success? {
          CollectedInListingOrder(first, listing, pages, maxArticles);
        }
    }
    if maxArticles >= 1 {
      ClampKeepsGathered(first, listing, pages, maxArticles);
      forall k | 1 <= k <= pages && LinksThrough(first, listing, k).Success?
          && |LinksThrough(first, listing, k).value| >= maxArticles
        ensures r == Success(LinksThrough(first, listing, k).value[..maxArticles])
      {
        CollectedStopsAtCap(first, listing, pages, maxArticles, k);
      }
    }
  }

  /** Later pages only add links after those of earlier pages. */
  lemma {:induction false} LinksThroughGrows(first: ListingVisit, listing: string -> ListingVisit, k: nat, m: nat)
    requires k <= m
    requires LinksThrough(first, listing, m).Success?
    ensures LinksThrough(first, listing, k).Success?
    ensures |LinksThrough(first, listing, k).value| <= |LinksThrough(first, listing, m).value|
    ensures LinksThrough(first, listing, k).value
      == LinksThrough(first, listing, m).value[..|LinksThrough(first, listing, k).value|]
    decreases m - k
  {
    if k < m {
      LinksThroughGrows(first, listing, k, m - 1);
      var before := LinksThrough(first, listing, m - 1).value;
      assert LinksThrough(first, listing, m).value == before + Resolved(PageVisit(first, listing, m).page.anchors);
    }
  }

  /** Once a page fails, reading further pages fails with the same error. */
  lemma {:induction false} FailurePersists(first: ListingVisit, listing: string -> ListingVisit, k: nat, m: nat)
    requires k <= m
    requires LinksThrough(first, listing, k).Failure?
    ensures LinksThrough(first, listing, m) == LinksThrough(first, listing, k)
    decreases m - k
  {
    if k < m {
      FailurePersists(first, listing, k, m - 1);
    }
  }

  /** For a positive `maxArticles` the final clamp changes nothing: the loop already stopped at
      the cap. */
  lemma {:induction false} ClampKeepsGathered(first: ListingVisit, listing: string -> ListingVisit, pages: nat, maxArticles: int)
    requires maxArticles >= 1
    ensures Collected(first, listing, pages, maxArticles) == Gathered(first, listing, pages, maxArticles)
  {
    match Gathered(first, listing, pages, maxArticles)
    case Success(g) =>
      assert g[..|g|] == g;
    case Failure(_) =>
  }

  /** The links handed on are the first links of the results pages, in listing order. */
  lemma {:induction false} CollectedInListingOrder(first: ListingVisit, listing: string -> ListingVisit, pages: nat, maxArticles: int)
    requires Collected(first, listing, pages, maxArticles).Success?
    requires LinksThrough(first, listing, pages).Success?
    ensures var ls := Collected(first, listing, pages, maxArticles).value;
      |ls| <= |LinksThrough(first, listing, pages).value|
      && ls == LinksThrough(first, listing, pages).value[..|ls|]
  {
    if pages >= 1 {
      var v := PagesOpened(first, listing, pages, maxArticles);
      LinksThroughGrows(first, listing, v, pages);
    }
  }

  /** Once pages 1 to k hold `maxArticles` links, no later page is opened: the links handed on are
      the first `maxArticles` links of pages 1 to k, whatever later pages would show. */
  lemma {:induction false} CollectedStopsAtCap(first: ListingVisit, listing: string -> ListingVisit, pages: nat,
                                               maxArticles: int, k: nat)
    requires maxArticles >= 1
    requires 1 <= k <= pages
    requires LinksThrough(first, listing, k).Success?
    requires |LinksThrough(first, listing, k).value| >= maxArticles
    ensures Collected(first, listing, pages, maxArticles) == Success(LinksThrough(first, listing, k).value[..maxArticles])
  {
    var v := PagesOpened(first, listing, pages, maxArticles);
    var lk := LinksThrough(first, listing, k).value;
    OpenedBeforeCap(first, listing, pages, maxArticles, k);
    var lv := LinksThrough(first, listing, v).value;
    assert lv[..maxArticles] == lk[..maxArticles];
    GatheredAt(first, listing, pages, maxArticles, v, lv);
    ClampKeepsGathered(first, listing, pages, maxArticles);
  }

  /** The page loop stops at page k at the latest once pages 1 to k hold `maxArticles` links, and
      the pages it opened already hold that many, the same first ones. */
  lemma {:induction false} OpenedBeforeCap(first: ListingVisit, listing: string -> ListingVisit, pages: nat,
                                           maxArticles: int, k: nat)
    requires 1 <= k <= pages
    requires LinksThrough(first, listing, k).Success?
    requires |LinksThrough(first, listing, k).value| >= maxArticles
    ensures 1 <= PagesOpened(first, listing, pages, maxArticles) <= k
    ensures LinksThrough(first, listing, PagesOpened(first, listing, pages, maxArticles)).Success?
    ensures var lv := LinksThrough(first, listing, PagesOpened(first, listing, pages, maxArticles)).value;
      && maxArticles <= |lv| <= |LinksThrough(first, listing, k).value|
      && lv == LinksThrough(first, listing, k).value[..|lv|]
  {
    var v := PagesOpened(first, listing, pages, maxArticles);
    assert !MovesOn(first, listing, k, maxArticles);
    assert v <= k;
    LinksThroughGrows(first, listing, v, k);
    if v < k {
      assert !MovesOn(first, listing, v, maxArticles);
    }
  }

  /** Collection ends short of `maxArticles` links only after every page was read: then all links
      of all pages are handed on. */
  lemma {:induction false} CollectedAllUnderCap(first: ListingVisit, listing: string -> ListingVisit, pages: nat, maxArticles: int)
    requires Collected(first, listing, pages, maxArticles).Success?
    requires |Collected(first, listing, pages, maxArticles).value| < maxArticles
    ensures LinksThrough(first, listing, pages) == Collected(first, listing, pages, maxArticles)
  {
    if pages >= 1 {
      var v := PagesOpened(first, listing, pages, maxArticles);
      if v < pages {
        assert MovesOn(first, listing, v, maxArticles);
      }
    }
  }

  /** A failed collection reports the error of the first results page that could not be read. */
  lemma {:induction false} CollectionFailureIsFirstPageError(first: ListingVisit, listing: string -> ListingVisit, pages: nat, maxArticles: int)
    requires Collected(first, listing, pages, maxArticles).Failure?
    ensures LinksThrough(first, listing, pages) == Collected(first, listing, pages, maxArticles)
  {
    var v := PagesOpened(first, listing, pages, maxArticles);
    FailurePersists(first, listing, v, pages);
  }
}

=== FILE: crawl.dfy ===
/** A whole scraping run: read the result count off the results page, work out how many pages to
    visit, collect the article links, then turn each link into a record in listing order. */
module Crawl {
  import opened Wrappers
  import opened Patterns
  import opened Pagination
  import opened Article
  import opened Collector

  /** How the search ends: it fails with an error, or it shows the results page, given by its
      source text and by what reading it as listing page 1 yields. */
  datatype SearchOutcome = SearchFailed(error: string) | ResultsShown(source: string, first: ListingVisit)

  /** Fetching against `site`, as a function of the link and the article number. */
  function Fetcher(site: string -> Visit): (Option<string>, nat) -> ArticleRecord {
    (link: Option<string>, index: nat) => FetchArticle(link, index, site)
  }

  /** The records of `links`, the i-th (from 0) fetched as article number i + 1. */
  function RecordsOf(links: seq<Anchor>, site: string -> Visit): (records: seq<ArticleRecord>)
    ensures |records| == |links|
  {
    seq(|links|, i requires 0 <= i < |links| => Fetcher(site)(links[i].href, i + 1))
  }

  /** The number of listing pages a run sets out to visit after a successful search. */
  function PlannedPages(source: string, maxArticles: int, maxPages: Option<int>): nat {
    ListingPages(TotalResults(source), maxArticles, maxPages)
  }

  /** The result of a run: nothing when the search or the link collection raises (no record
      exists yet at that point), otherwise one record per collected link; never more records
      than the article cap, and none for a cap that is not positive. */
  function RunResult(search: SearchOutcome, listing: string -> ListingVisit, site: string -> Visit,
                     maxPages: Option<int>, maxArticles: int): (records: seq<ArticleRecord>)
    ensures search.SearchFailed? ==> records == []
    ensures search.ResultsShown? ==>
      var collected := Collected(search.first, listing, PlannedPages(search.source, maxArticles, maxPages), maxArticles);
      && (collected.Failure? ==> records == [])
      && (collected.Success? ==> |records| == |collected.value|)
      && (collected.Success? ==> forall i :: 0 <= i < |collected.value| ==>
            records[i] == FetchArticle(collected.value[i].href, i + 1, site))
    ensures maxArticles >= 1 ==> |records| <= maxArticles
    ensures maxArticles <= 0 ==> records == []
  {
    match search
    case SearchFailed(_) => []
    case ResultsShown(source, first) =>
      match Collected(first, listing, PlannedPages(source, maxArticles, maxPages), maxArticles)
      case Failure(_) => []
      case Success(links) => RecordsOf(links, site)
  }

  /** The article loop: every link is fetched in order, numbered from 1, and its record kept. */
  method ExtractArticles(links: seq<Anchor>, fetch: (Option<string>, nat) -> ArticleRecord)
    returns (records: seq<ArticleRecord>)
    ensures |records| == |links|
    ensures forall i :: 0 <= i < |links| ==> records[i] == fetch(links[i].href, i + 1)
  {
    records := [];
    var i := 0;
    while i < |links|
      invariant 0 <= i <= |links|
      invariant |records| == i
      invariant forall j :: 0 <= j < i ==> records[j] == fetch(links[j].href, j + 1)
    {
      records := records + [fetch(links[i].href, i + 1)];
      i := i + 1;
    }
  }

  /** Records fetched one by one, in order, are the records of the links. */
  lemma {:induction false} FetchedInOrder(links: seq<Anchor>, site: string -> Visit, records: seq<ArticleRecord>)
    requires |records| == |links|
    requires forall i :: 0 <= i < |links| ==> records[i] == Fetcher(site)(links[i].href, i + 1)
    ensures records == RecordsOf(links, site)
  {
  }

  /** The scraper's run after the search: count, plan, collect, extract. */
  method Scrape(search: SearchOutcome, listing: string -> ListingVisit, site: string -> Visit,
                maxPages: Option<int>, maxArticles: int)
    returns (records: seq<ArticleRecord>)
    ensures records == RunResult(search, listing, site, maxPages, maxArticles)
    ensures maxArticles <= 0 ==> records == []
    ensures maxArticles >= 1 ==> |records| <= maxArticles
  {
    match search {
      case SearchFailed(_) =>
        return [];
      case ResultsShown(source, first) =>
        var total := TotalResults(source);
        var pages := TotalPages(CalculatedPages(total, maxArticles), maxPages);
        var collected := CollectLinks(first, listing, pages, maxArticles);
        match collected {
          case Failure(_) =>
            return [];
          case Success(links) =>
            records := ExtractArticles(links, Fetcher(site));
            FetchedInOrder(links, site, records);
        }
    }
  }

  /** Every record of a run carries "Unknown date" or a `dddd-dd-dd` date. */
  lemma {:induction false} RunDatesWellFormed(search: SearchOutcome, listing: string -> ListingVisit, site: string -> Visit,
                           maxPages: Option<int>, maxArticles: int)
    ensures var records := RunResult(search, listing, site, maxPages, maxArticles);
      forall i :: 0 <= i < |records| ==> records[i].date == UnknownDate || IsIsoDate(records[i].date)
  {
    if search.ResultsShown? {
      var collected := Collected(search.first, listing, PlannedPages(search.source, maxArticles, maxPages), maxArticles);
      if collected.Success? {
        RecordDatesWellFormed(collected.value, site);
      }
    }
  }

  lemma {:induction false} RecordDatesWellFormed(links: seq<Anchor>, site: string -> Visit)
    ensures var records := RecordsOf(links, site);
      forall i :: 0 <= i < |records| ==> records[i].date == UnknownDate || IsIsoDate(records[i].date)
  {
    var records := RecordsOf(links, site);
    forall i | 0 <= i < |records|
      ensures records[i].date == UnknownDate || IsIsoDate(records[i].date)
    {
      assert records[i] == Fetcher(site)(links[i].href, i + 1) == FetchArticle(links[i].href, i + 1, site);
    }
  }

  /** When every planned page opens and they hold fewer links than the cap, the run has one
      record per link of those pages, in listing order. */
  lemma {:induction false} RunCoversAllPagesUnderCap(search: SearchOutcome, listing: string -> ListingVisit, site: string -> Visit,
                                  maxPages: Option<int>, maxArticles: int)
    requires search.ResultsShown?
    requires LinksThrough(search.first, listing, PlannedPages(search.source, maxArticles, maxPages)).Success?
    requires |LinksThrough(search.first, listing, PlannedPages(search.source, maxArticles, maxPages)).value| < maxArticles
    ensures RunResult(search, listing, site, maxPages, maxArticles)
      == RecordsOf(LinksThrough(search.first, listing, PlannedPages(search.source, maxArticles, maxPages)).value, site)
  {
    var pages := PlannedPages(search.source, maxArticles, maxPages);
    var all := LinksThrough(search.first, listing, pages).value;
    match Collected(search.first, listing, pages, maxArticles)
    case Failure(_) =>
      CollectionFailureIsFirstPageError(search.first, listing, pages, maxArticles);
    case Success(ls) =>
      CollectedInListingOrder(search.first, listing, pages, maxArticles);
      CollectedAllUnderCap(search.first, listing, pages, maxArticles);
  }
}

=== FILE: links.dfy ===
/** URL handling in the scraper: making listing hrefs and article links absolute, and rewriting
    the results-page URL to point at another page of results. */
module Links {
  import opened Wrappers
  import opened Text
  import opened Patterns

  /** The site every relative link is resolved against. */
  const BaseUrl: string := "https://udndata.com"

  /** An href read from a listing anchor: a root-relative path gets the site prefixed; anything
      else, including an empty or a missing href, is kept as it is. */
  function ListingHref(href: Option<string>): (r: Option<string>)
    ensures href.None? ==> r.None?
    ensures href.Some? && StartsWith(href.value, "/") ==> r == Some(BaseUrl + href.value)
    ensures href.Some? && !StartsWith(href.value, "/") ==> r == href
  {
    match href
    case None => None
    case Some(h) => if StartsWith(h, "/") then Some(BaseUrl + h) else href
  }

  /** The absolute URL an article link is opened at. */
  function ArticleUrl(link: string): (u: string)
    ensures StartsWith(u, "http")
    ensures StartsWith(link, "http") ==> u == link
    ensures StartsWith(link, "/") ==> u == BaseUrl + link
    ensures !StartsWith(link, "/") && !StartsWith(link, "http") ==> u == BaseUrl + "/" + link
  {
    if StartsWith(link, "/") then
      assert link[0] == '/';
      BaseUrl + link
    else if !StartsWith(link, "http") then BaseUrl + "/" + link
    else link
  }

  /** Making an article link absolute twice changes nothing the second time. */
  lemma {:induction false} ArticleUrlIdempotent(link: string)
    ensures ArticleUrl(ArticleUrl(link)) == ArticleUrl(link)
  {
  }

  /** Resolving a listing href first does not change the URL the article is opened at. */
  lemma {:induction false} ListingHrefThenArticleUrl(href: string)
    ensures ArticleUrl(ListingHref(Some(href)).value) == ArticleUrl(href)
  {
  }

  const PageKey: string := "page="

  /** The pattern `page=\d+`. */
  const PagePattern: Pattern := KeyedDigits(PageKey)

  /** The page a results URL designates: the number after its leftmost `page=<digits>`. */
  function PageNumber(url: string): (r: Option<nat>)
    ensures r.None? <==> Search(PagePattern, url).None?
  {
    match Search(PagePattern, url)
    case Some(h) => Some(ParseDecimal(h.group))
    case None => None
  }

  /** Python's `re.sub(r'page=\d+', rep, s)`: scanning left to right, every `page=` followed by a
      maximal digit run is replaced by `rep`; every other character is copied. */
  function ReplacePageNumbers(s: string, rep: string): (r: string)
    ensures Search(PagePattern, s).None? ==> r == s
    ensures Search(PagePattern, s).Some? ==>
      var h := Search(PagePattern, s).value;
      && h.at + |PageKey| + |h.group| <= |s|
      && r == s[..h.at] + (rep + ReplaceFrom(s, rep, h.at + |PageKey| + |h.group|))
  {
    match Search(PagePattern, s)
    case None =>
      ReplaceWithoutMatch(s, rep, 0);
      ReplaceFrom(s, rep, 0)
    case Some(h) =>
      ReplaceUpToMatch(s, rep, 0, h.at, h.group);
      assert s[0..h.at] == s[..h.at];
      ReplaceFrom(s, rep, 0)
  }

  /** The rewrite of `s` from index `k` on. */
  function ReplaceFrom(s: string, rep: string, k: nat): string
    decreases |s| - k
  {
    if k >= |s| then ""
    else
      match MatchAt(PagePattern, s, k)
      case Some(d) => rep + ReplaceFrom(s, rep, k + |PageKey| + |d|)
      case None => [s[k]] + ReplaceFrom(s, rep, k + 1)
  }

  /** The URL of results page `n`, built from the URL of the page currently shown. */
  function NextPageUrl(url: string, n: nat): (r: string)
    ensures !Contains(url, PageKey) ==> StartsWith(r, url) && |r| > |url|
    ensures !Contains(url, PageKey) ==> (r[|url|] == '&' <==> Contains(url, "?"))
  {
    if Contains(url, PageKey) then ReplacePageNumbers(url, PageKey + Decimal(n))
    else
      var separator := if Contains(url, "?") then "&" else "?";
      assert (url + separator + PageKey + Decimal(n))[..|url|] == url;
      url + separator + PageKey + Decimal(n)
  }

  /** From an index after which there is no `page=<digits>`, the rewrite copies the rest. */
  lemma {:induction false} ReplaceWithoutMatch(s: string, rep: string, k: nat)
    requires k <= |s|
    requires forall j :: k <= j ==> MatchAt(PagePattern, s, j).None?
    ensures ReplaceFrom(s, rep, k) == s[k..]
    decreases |s| - k
  {
    if k < |s| {
      assert MatchAt(PagePattern, s, k).None?;
      ReplaceWithoutMatch(s, rep, k + 1);
      assert s[k..] == [s[k]] + s[k + 1..];
    }
  }

  /** Where no `page=<digits>` starts, the rewrite copies one character. */
  lemma {:induction false} ReplaceCopies(s: string, rep: string, k: nat)
    requires k < |s| && MatchAt(PagePattern, s, k).None?
    ensures ReplaceFrom(s, rep, k) == [s[k]] + ReplaceFrom(s, rep, k + 1)
  {
  }

  /** Where `page=<digits>` starts, the rewrite emits `rep` and resumes after the digits. */
  lemma {:induction false} ReplaceAtMatch(s: string, rep: string, i: nat, g: string)
    requires MatchAt(PagePattern, s, i) == Some(g)
    ensures i + |PageKey| + |g| <= |s|
    ensures ReplaceFrom(s, rep, i) == rep + ReplaceFrom(s, rep, i + |PageKey| + |g|)
  {
  }

  /** Up to the next match the rewrite copies the string; the match itself becomes `rep`. */
  lemma {:induction false} ReplaceUpToMatch(s: string, rep: string, k: nat, i: nat, g: string)
    requires k <= i
    requires MatchAt(PagePattern, s, i) == Some(g)
    requires forall j :: k <= j < i ==> MatchAt(PagePattern, s, j).None?
    ensures i + |PageKey| + |g| <= |s|
    ensures ReplaceFrom(s, rep, k) == s[k..i] + (rep + ReplaceFrom(s, rep, i + |PageKey| + |g|))
    decreases i - k
  {
    ReplaceAtMatch(s, rep, i, g);
    if k < i {
      ReplaceUpToMatch(s, rep, k + 1, i, g);
      ReplaceCopies(s, rep, k);
      PrependCopied(s, k, i, rep + ReplaceFrom(s, rep, i + |PageKey| + |g|),
        ReplaceFrom(s, rep, k + 1), ReplaceFrom(s, rep, k));
    } else {
      assert s[k..i] == [];
    }
  }

  lemma {:induction false} PrependCopied(s: string, k: nat, i: nat, rest: string, later: string, whole: string)
    requires k < i <= |s|
    requires whole == [s[k]] + later
    requires later == s[k + 1..i] + rest
    ensures whole == s[k..i] + rest
  {
    assert s[k..i] == [s[k]] + s[k + 1..i];
  }

  /** The rewrite from an index inside the string begins with `rep` or with the character there. */
  lemma {:induction false} ReplaceHead(s: string, rep: string, k: nat)
    requires k < |s| && |rep| > 0
    ensures |ReplaceFrom(s, rep, k)| > 0
    ensures ReplaceFrom(s, rep, k)[0] == (if MatchAt(PagePattern, s, k).Some? then rep[0] else s[k])
  {
  }

  /** In `a + b`, where `b` begins with a character that can neither continue `page=` nor be a
      digit, no `page=<digit>` starts at an index of `a` close enough to the boundary to reach `b`. */
  lemma {:induction false} NoMatchAcrossBoundary(a: string, b: string, j: int)
    requires 0 <= j < |a| <= j + |PageKey|
    requires |b| > 0 && (b[0] == 'p' || b[0] == '&' || b[0] == '?')
    ensures MatchAt(PagePattern, a + b, j).None?
  {
    var t := (a + b)[j..];
    var m := |a| - j;
    assert t[m] == b[0];
    if m < |PageKey| <= |t| {
      assert t[..|PageKey|][m] == t[m];
    }
  }

  /** Whether `page=<digit>` starts at an index far enough from the end of `a` is decided by `a` alone. */
  lemma {:induction false} MatchWithinPrefix(a: string, b: string, j: int)
    requires 0 <= j && j + |PageKey| < |a|
    ensures MatchAt(PagePattern, a + b, j).Some? == MatchAt(PagePattern, a, j).Some?
  {
    assert (a + b)[j..][..|PageKey|] == a[j..][..|PageKey|];
    assert (a + b)[j..][|PageKey|] == a[j..][|PageKey|];
  }

  /** `page=` followed by the numeral and then by a non-digit (or nothing) captures the numeral. */
  lemma {:induction false} MatchOfRewrite(numeral: string, tail: string)
    requires |numeral| >= 1 && AllDigits(numeral)
    requires |tail| == 0 || !IsDigit(tail[0])
    ensures MatchHead(PagePattern, PageKey + numeral + tail) == Some(numeral)
  {
    var t := PageKey + numeral + tail;
    assert t[..|PageKey|] == PageKey;
    assert t[|PageKey|] == numeral[0];
    assert t[|PageKey|..] == numeral + tail;
    LeadingDigitsOfConcat(numeral, tail);
  }

  /** A search that finds `numeral` at index `i` with nothing before it reads page `n`. */
  lemma {:induction false} PageNumberFromFirstMatch(r: string, i: int, n: nat)
    requires MatchAt(PagePattern, r, i) == Some(Decimal(n))
    requires forall j :: 0 <= j < i ==> MatchAt(PagePattern, r, j).None?
    ensures PageNumber(r) == Some(n)
  {
    ParseDecimalOfDecimal(n);
  }

  /** Putting something that begins with `p` after a match-free stretch of a URL creates no
      `page=<digit>` inside that stretch. */
  lemma {:induction false} NoMatchBeforeSplice(url: string, i: nat, b: string)
    requires i <= |url|
    requires forall j :: 0 <= j < i ==> MatchAt(PagePattern, url, j).None?
    requires |b| > 0 && b[0] == 'p'
    ensures forall j :: 0 <= j < i ==> MatchAt(PagePattern, url[..i] + b, j).None?
  {
    forall j | 0 <= j < i
      ensures MatchAt(PagePattern, url[..i] + b, j).None?
    {
      if j + |PageKey| < i {
        MatchWithinPrefix(url[..i], b, j);
        MatchWithinPrefix(url[..i], url[i..], j);
        assert url[..i] + url[i..] == url;
      } else {
        NoMatchAcrossBoundary(url[..i], b, j);
      }
    }
  }

  /** The rewrite resumed right after a maximal digit run does not begin with a digit. */
  lemma {:induction false} RewriteResumesWithNonDigit(url: string, rep: string, e: nat)
    requires e <= |url| && |rep| > 0 && rep[0] == 'p'
    requires e < |url| ==> !IsDigit(url[e])
    ensures |ReplaceFrom(url, rep, e)| == 0 || !IsDigit(ReplaceFrom(url, rep, e)[0])
  {
    if e < |url| {
      ReplaceHead(url, rep, e);
    }
  }

  /** A string made of a match-free stretch, then `page=n`, then a non-digit, designates page `n`. */
  lemma {:induction false} SplicedUrlDesignatesPage(url: string, i: nat, n: nat, tail: string, r: string)
    requires i <= |url|
    requires forall j :: 0 <= j < i ==> MatchAt(PagePattern, url, j).None?
    requires |tail| == 0 || !IsDigit(tail[0])
    requires r == url[..i] + (PageKey + Decimal(n) + tail)
    ensures PageNumber(r) == Some(n)
  {
    var b := PageKey + Decimal(n) + tail;
    NoMatchBeforeSplice(url, i, b);
    MatchOfRewrite(Decimal(n), tail);
    assert r[i..] == b;
    PageNumberFromFirstMatch(r, i, n);
  }

  /** Rewriting a URL that has a `page=<digits>` makes it designate page `n`. */
  lemma {:induction false} RewrittenUrlDesignatesPage(url: string, n: nat)
    requires Search(PagePattern, url).Some?
    ensures PageNumber(ReplacePageNumbers(url, PageKey + Decimal(n))) == Some(n)
  {
    var h := Search(PagePattern, url).value;
    RewriteAtFirstMatch(url, n, h.at, h.group);
  }

  /** The same, given where the first `page=<digits>` is and what digits it has. */
  lemma {:induction false} RewriteAtFirstMatch(url: string, n: nat, i: nat, g: string)
    requires MatchAt(PagePattern, url, i) == Some(g)
    requires forall j :: 0 <= j < i ==> MatchAt(PagePattern, url, j).None?
    ensures PageNumber(ReplacePageNumbers(url, PageKey + Decimal(n))) == Some(n)
  {
    var rep := PageKey + Decimal(n);
    var e := i + |PageKey| + |g|;
    var r := ReplacePageNumbers(url, rep);
    RewriteAroundFirstMatch(url, rep, i, g, r);
    RewriteResumesWithNonDigit(url, rep, e);
    SplicedUrlDesignatesPage(url, i, n, ReplaceFrom(url, rep, e), r);
  }

  /** The rewrite of a URL whose first `page=<digits>` is at `i` keeps what precedes it, puts
      `rep` in its place and resumes on a non-digit. */
  lemma {:induction false} RewriteAroundFirstMatch(url: string, rep: string, i: nat, g: string, r: string)
    requires MatchAt(PagePattern, url, i) == Some(g)
    requires forall j :: 0 <= j < i ==> MatchAt(PagePattern, url, j).None?
    requires r == ReplacePageNumbers(url, rep)
    ensures i + |PageKey| + |g| <= |url|
    ensures r == url[..i] + (rep + ReplaceFrom(url, rep, i + |PageKey| + |g|))
    ensures i + |PageKey| + |g| < |url| ==> !IsDigit(url[i + |PageKey| + |g|])
  {
    ReplaceUpToMatch(url, rep, 0, i, g);
    assert url[0..i] == url[..i];
    var e := i + |PageKey| + |g|;
    assert e < |url| ==> url[e] == url[i..][|PageKey| + |g|];
  }

  /** Whatever follows a URL without `page=`, provided it begins with `&` or `?`, no match
      starts inside the URL. */
  lemma {:induction false} NoMatchInUnpagedUrl(url: string, b: string)
    requires !Contains(url, PageKey)
    requires |b| > 0 && (b[0] == '&' || b[0] == '?')
    ensures forall j :: 0 <= j < |url| ==> MatchAt(PagePattern, url + b, j).None?
  {
    forall j | 0 <= j < |url|
      ensures MatchAt(PagePattern, url + b, j).None?
    {
      if j + |PageKey| < |url| {
        MatchWithinPrefix(url, b, j);
        assert url[j..][..|PageKey|] == url[j..j + |PageKey|];
        assert MatchAt(PagePattern, url, j).Some? ==> OccursAt(url, PageKey, j);
      } else {
        NoMatchAcrossBoundary(url, b, j);
      }
    }
  }

  /** A URL without `page=`, then `&` or `?`, then `page=n`, designates page `n`. */
  lemma {:induction false} SuffixedUrlDesignatesPage(url: string, separator: string, n: nat, r: string)
    requires !Contains(url, PageKey)
    requires separator == "&" || separator == "?"
    requires r == url + (separator + PageKey + Decimal(n))
    ensures PageNumber(r) == Some(n)
  {
    var numeral := Decimal(n);
    var b := separator + PageKey + numeral;
    NoMatchInUnpagedUrl(url, b);
    assert MatchAt(PagePattern, r, |url|).None? by {
      assert r[|url|..][0] == separator[0];
    }
    assert MatchAt(PagePattern, r, |url| + 1) == Some(numeral) by {
      assert r[|url| + 1..] == PageKey + numeral + "";
      MatchOfRewrite(numeral, "");
    }
    PageNumberFromFirstMatch(r, |url| + 1, n);
  }

  /** Appending `page=n` to a URL without any `page=` makes it designate page `n`. */
  lemma {:induction false} AppendedUrlDesignatesPage(url: string, n: nat)
    requires !Contains(url, PageKey)
    ensures PageNumber(NextPageUrl(url, n)) == Some(n)
  {
    var separator := if Contains(url, "?") then "&" else "?";
    assert NextPageUrl(url, n) == url + (separator + PageKey + Decimal(n));
    SuffixedUrlDesignatesPage(url, separator, n, NextPageUrl(url, n));
  }

  /** The URL built for page `n` designates page `n`, unless the current URL has `page=` only
      without digits after it, in which case it is reused unchanged. */
  lemma {:induction false} NextPageUrlDesignatesPage(url: string, n: nat)
    ensures Contains(url, PageKey) && Search(PagePattern, url).None? ==> NextPageUrl(url, n) == url
    ensures !(Contains(url, PageKey) && Search(PagePattern, url).None?) ==>
      PageNumber(NextPageUrl(url, n)) == Some(n)
  {
    if Contains(url, PageKey) {
      if Search(PagePattern, url).None? {
        ReplaceWithoutMatch(url, PageKey + Decimal(n), 0);
      } else {
        RewrittenUrlDesignatesPage(url, n);
      }
    } else {
      AppendedUrlDesignatesPage(url, n);
    }
  }
}

=== FILE: pagination.dfy ===
/** How many results pages the scraper visits: the total the results page reports, the page size
    of 20, the article cap and the optional page cap. */
module Pagination {
  import opened Wrappers
  import opened Text
  import opened Patterns

  /** Results per listing page. */
  const PageSize: nat := 20

  function Min(a: int, b: int): int {
    if a <= b then a else b
  }

  /** The total the results page reports: the count in its leftmost result-count banner, or 0
      when the page source has none. */
  function TotalResults(source: string): (total: nat)
    ensures Search(ResultCount, source).None? ==> total == 0
  {
    match Search(ResultCount, source)
    case Some(h) => ParseDecimal(h.group)
    case None => 0
  }

  /** A page source whose leftmost result-count banner reports `count` is read as `count`: the
      banner may follow any text in which no banner starts, as in a full HTML document. */
  lemma {:induction false} TotalResultsOfBanner(prefix: string, spaces: string, count: nat, rest: string)
    requires forall i :: 0 <= i < |spaces| ==> IsSpace(spaces[i])
    requires forall j :: 0 <= j < |prefix| ==>
      MatchAt(ResultCount, prefix + (ResultLead + (spaces + (ResultOpen + (Decimal(count) + (ResultClose + rest))))), j).None?
    ensures TotalResults(prefix + (ResultLead + (spaces + (ResultOpen + (Decimal(count) + (ResultClose + rest)))))) == count
  {
    var banner := ResultLead + (spaces + (ResultOpen + (Decimal(count) + (ResultClose + rest))));
    TotalResultsAt(prefix, spaces, count, rest, banner, prefix + banner);
  }

  /** The same fact with the banner and the page source named, so the proof can refer to them. */
  lemma {:induction false} TotalResultsAt(prefix: string, spaces: string, count: nat, rest: string,
                                          banner: string, source: string)
    requires forall i :: 0 <= i < |spaces| ==> IsSpace(spaces[i])
    requires banner == ResultLead + (spaces + (ResultOpen + (Decimal(count) + (ResultClose + rest))))
    requires source == prefix + banner
    requires forall j :: 0 <= j < |prefix| ==> MatchAt(ResultCount, source, j).None?
    ensures TotalResults(source) == count
  {
    var numeral := Decimal(count);
    BannerHead(spaces, numeral, rest, banner);
    assert source[|prefix|..] == banner;
    assert MatchAt(ResultCount, source, |prefix|) == Some(numeral);
    var h := Search(ResultCount, source);
    assert h.Some? && h.value.at == |prefix|;
    ParseDecimalOfDecimal(count);
  }

  /** No banner starts in text that lacks the banner's first character ("共"), whatever follows. */
  lemma {:induction false} BannerFreePrefix(prefix: string, banner: string)
    requires forall i :: 0 <= i < |prefix| ==> prefix[i] != ResultLead[0]
    ensures forall j :: 0 <= j < |prefix| ==> MatchAt(ResultCount, prefix + banner, j).None?
  {
    var source := prefix + banner;
    forall j | 0 <= j < |prefix|
      ensures MatchAt(ResultCount, source, j).None?
    {
      var t := source[j..];
      assert t[0] == prefix[j];
      assert !StartsWith(t, ResultLead) by {
        if |ResultLead| <= |t| {
          assert t[..|ResultLead|][0] == t[0];
        }
      }
    }
  }

  /** The banner with a digit run in it matches at its start and captures the digits. */
  lemma {:induction false} BannerHead(spaces: string, numeral: string, rest: string, t: string)
    requires forall i :: 0 <= i < |spaces| ==> IsSpace(spaces[i])
    requires |numeral| >= 1 && AllDigits(numeral)
    requires t == ResultLead + (spaces + (ResultOpen + (numeral + (ResultClose + rest))))
    ensures ResultCountHead(t) == Some(numeral)
  {
    var tail := numeral + (ResultClose + rest);
    var tagged := ResultOpen + tail;
    var afterLead := spaces + tagged;
    assert StartsWith(t, ResultLead) && t[|ResultLead|..] == afterLead;
    SpacesBeforeTag(spaces, tagged, afterLead);
    assert StartsWith(tagged, ResultOpen) && tagged[|ResultOpen|..] == tail;
    DigitsBeforeTag(numeral, rest, tail);
    ResultCountHeadOf(t, afterLead, tagged, tail, numeral);
  }

  /** The steps of matching the banner, taken one at a time. */
  lemma {:induction false} ResultCountHeadOf(t: string, afterLead: string, tagged: string, tail: string, digits: string)
    requires StartsWith(t, ResultLead) && t[|ResultLead|..] == afterLead
    requires afterLead[|LeadingSpaces(afterLead)|..] == tagged
    requires StartsWith(tagged, ResultOpen) && tagged[|ResultOpen|..] == tail
    requires LeadingDigits(tail) == digits && |digits| > 0
    requires StartsWith(tail[|digits|..], ResultClose)
    ensures ResultCountHead(t) == Some(digits)
  {
  }

  lemma {:induction false} SpacesBeforeTag(spaces: string, tagged: string, s: string)
    requires forall i :: 0 <= i < |spaces| ==> IsSpace(spaces[i])
    requires |tagged| > 0 && tagged[0] == '<'
    requires s == spaces + tagged
    ensures LeadingSpaces(s) == spaces && s[|spaces|..] == tagged
    ensures s[|LeadingSpaces(s)|..] == tagged
  {
    LeadingSpacesOfConcat(spaces, tagged);
  }

  lemma {:induction false} DigitsBeforeTag(numeral: string, rest: string, tail: string)
    requires |numeral| >= 1 && AllDigits(numeral)
    requires tail == numeral + (ResultClose + rest)
    ensures LeadingDigits(tail) == numeral && StartsWith(tail[|numeral|..], ResultClose)
  {
    LeadingDigitsOfConcat(numeral, ResultClose + rest);
    assert tail[|numeral|..] == ResultClose + rest;
  }

  /** Pages needed before the page cap: one page whenever fewer than 20 articles are wanted
      (even when nothing was found), otherwise the fewest pages of 20 that hold
      min(totalResults, maxArticles) results. */
  function CalculatedPages(totalResults: nat, maxArticles: int): (pages: nat)
    ensures maxArticles < PageSize ==> pages == 1
    ensures maxArticles >= PageSize ==> pages * PageSize >= Min(totalResults, maxArticles)
    ensures maxArticles >= PageSize && pages > 0 ==> (pages - 1) * PageSize < Min(totalResults, maxArticles)
  {
    if maxArticles < PageSize then 1
    else (Min(totalResults, maxArticles) + PageSize - 1) / PageSize
  }

  /** The page cap applies only when it is given and positive; it never raises the count. */
  function TotalPages(calculated: nat, maxPages: Option<int>): (pages: nat)
    ensures maxPages.Some? && maxPages.value > 0 ==>
      pages <= calculated && pages <= maxPages.value && (pages == calculated || pages == maxPages.value)
    ensures !(maxPages.Some? && maxPages.value > 0) ==> pages == calculated
  {
    match maxPages
    case Some(cap) => if cap > 0 then Min(calculated, cap) else calculated
    case None => calculated
  }

  /** The number of listing pages a run visits at most. */
  function ListingPages(totalResults: nat, maxArticles: int, maxPages: Option<int>): nat {
    TotalPages(CalculatedPages(totalResults, maxArticles), maxPages)
  }

  /** Worked examples: 45 results with a cap of 50 take 3 pages; 200 results with a cap of 15
      take 1 page; no results with a cap of 50 take none; a page cap of 2 trims 3 pages to 2,
      while a page cap of 0 or -1 is ignored. */
  lemma {:induction false} WorkedExamples()
    ensures ListingPages(45, 50, None) == 3
    ensures ListingPages(200, 15, None) == 1
    ensures ListingPages(0, 50, None) == 0
    ensures ListingPages(0, 5, None) == 1
    ensures ListingPages(45, 50, Some(2)) == 2
    ensures ListingPages(45, 50, Some(0)) == 3 && ListingPages(45, 50, Some(-1)) == 3
  {
  }
}

=== FILE: patterns.dfy ===
/** The scraper's regular expressions, written out as string functions. Each pattern is matched
    the way Python's `re.search` does: at the leftmost position where it matches at all. Digits
    are ASCII digits; whitespace is Python's Unicode whitespace class. */
module Patterns {
  import opened Wrappers
  import opened Text

  /** The patterns the scraper searches with.
      KeyedDigits(k): the literal `k` followed by a greedy `\d+`, the digits captured
      (`news_id=(\d+)` and `page=\d+`).
      IsoDate: `(\d{4}-\d{2}-\d{2})`.
      ResultCount: the result-count banner of the search page, `共搜尋到\s*<span class="mark">(\d+)</span>筆資料`. */
  datatype Pattern = KeyedDigits(key: string) | IsoDate | ResultCount

  /** The text of the banner before the whitespace: "共搜尋到" ("search found"). */
  const ResultLead: string := "\U{5171}\U{641C}\U{5C0B}\U{5230}"
  const ResultOpen: string := "<span class=\"mark\">"
  /** The text after the count: the closing tag and "筆資料" ("records"). */
  const ResultClose: string := "</span>\U{7B46}\U{8CC7}\U{6599}"

  predicate IsIsoDate(d: string) {
    && |d| == 10 && d[4] == '-' && d[7] == '-'
    && forall i :: 0 <= i < 10 && i != 4 && i != 7 ==> IsDigit(d[i])
  }

  /** `key(\d+)` at the start of `t`: the maximal digit run right after the key. */
  function KeyedDigitsHead(key: string, t: string): (g: Option<string>)
    ensures g.Some? <==> StartsWith(t, key) && |key| < |t| && IsDigit(t[|key|])
    ensures g.Some? ==>
      && |g.value| >= 1 && AllDigits(g.value)
      && |key| + |g.value| <= |t|
      && StartsWith(t, key + g.value)
      && (|key| + |g.value| < |t| ==> !IsDigit(t[|key| + |g.value|]))
  {
    if StartsWith(t, key) && |key| < |t| && IsDigit(t[|key|]) then
      var d := LeadingDigits(t[|key|..]);
      assert t[..|key| + |d|] == t[..|key|] + t[|key|..][..|d|];
      Some(d)
    else None
  }

  /** `(\d{4}-\d{2}-\d{2})` at the start of `t`. */
  function IsoDateHead(t: string): (g: Option<string>)
    ensures g.Some? <==> |t| >= 10 && IsIsoDate(t[..10])
    ensures g.Some? ==> g.value == t[..10]
  {
    if |t| >= 10 && IsIsoDate(t[..10]) then Some(t[..10]) else None
  }

  /** The result-count banner at the start of `t`: the lead text, any whitespace, the opening
      tag, a maximal digit run (captured), then the closing text. */
  function ResultCountHead(t: string): (g: Option<string>)
    ensures g.Some? ==> |g.value| >= 1 && AllDigits(g.value) && StartsWith(t, ResultLead)
  {
    if !StartsWith(t, ResultLead) then None
    else
      var rest := t[|ResultLead|..];
      var afterSpaces := rest[|LeadingSpaces(rest)|..];
      if !StartsWith(afterSpaces, ResultOpen) then None
      else
        var tail := afterSpaces[|ResultOpen|..];
        var digits := LeadingDigits(tail);
        if |digits| > 0 && StartsWith(tail[|digits|..], ResultClose) then Some(digits) else None
  }

  /** The captured group when `p` matches at the very start of `t`, or None when it does not. */
  function MatchHead(p: Pattern, t: string): (g: Option<string>)
    ensures g.Some? ==> |g.value| >= 1
  {
    match p
    case KeyedDigits(key) => KeyedDigitsHead(key, t)
    case IsoDate => IsoDateHead(t)
    case ResultCount => ResultCountHead(t)
  }

  /** The group `p` captures when matched at index `i` of `s`; None outside `s`. */
  function MatchAt(p: Pattern, s: string, i: int): Option<string> {
    if 0 <= i <= |s| then MatchHead(p, s[i..]) else None
  }

  /** Where a search matched and what the group captured. */
  datatype Hit = Hit(at: nat, group: string)

  /** The leftmost match of `p` in `s` at index `from` or later. */
  function SearchFrom(p: Pattern, s: string, from: nat): (r: Option<Hit>)
    decreases |s| + 1 - from
    ensures r.Some? ==> from <= r.value.at <= |s| && MatchAt(p, s, r.value.at) == Some(r.value.group)
    ensures r.Some? ==> forall j :: from <= j < r.value.at ==> MatchAt(p, s, j).None?
    ensures r.None? ==> forall j :: from <= j ==> MatchAt(p, s, j).None?
  {
    if from > |s| then None
    else
      match MatchAt(p, s, from)
      case Some(g) => Some(Hit(from, g))
      case None => SearchFrom(p, s, from + 1)
  }

  /** Python's `re.search(p, s)`: the leftmost match, if any. */
  function Search(p: Pattern, s: string): (r: Option<Hit>)
    ensures r.Some? ==> r.value.at <= |s| && MatchAt(p, s, r.value.at) == Some(r.value.group)
    ensures r.Some? ==> forall j :: 0 <= j < r.value.at ==> MatchAt(p, s, j).None?
    ensures r.None? <==> forall j :: 0 <= j ==> MatchAt(p, s, j).None?
  {
    SearchFrom(p, s, 0)
  }

  /** The part of `s` that the anchor `$` can end a match at: Python's `$` matches at the end of
      the string and also just before a final newline. */
  function AnchoredPart(s: string): string {
    if |s| > 0 && s[|s| - 1] == '\n' then s[..|s| - 1] else s
  }

  /** `t` ends in a slash at index `k` followed by one or more digits and nothing else. */
  predicate SlashNumberAt(t: string, k: int) {
    0 <= k < |t| - 1 && t[k] == '/' && AllDigits(t[k + 1..])
  }

  /** Python's `re.search(r'/(\d+)$', s).group(1)`, or None when there is no match. */
  function TrailingId(s: string): (r: Option<string>)
    ensures r.Some? ==>
      var t := AnchoredPart(s);
      |r.value| >= 1 && AllDigits(r.value) && SlashNumberAt(t, |t| - |r.value| - 1)
      && r.value == t[|t| - |r.value|..]
    ensures r.None? <==> forall k :: !SlashNumberAt(AnchoredPart(s), k)
  {
    var t := AnchoredPart(s);
    var d := TrailingDigits(t);
    if 0 < |d| < |t| && t[|t| - |d| - 1] == '/' then
      SlashBeforeTrailingDigits(t, d);
      Some(d)
    else
      NoSlashBeforeTrailingDigits(t, d);
      None
  }

  /** A slash right before the trailing digit run ends `t` in a slash and a number. */
  lemma {:induction false} SlashBeforeTrailingDigits(t: string, d: string)
    requires d == TrailingDigits(t)
    requires 0 < |d| < |t| && t[|t| - |d| - 1] == '/'
    ensures SlashNumberAt(t, |t| - |d| - 1) && t[|t| - |d|..] == d
  {
    assert t[|t| - |d|..] == d;
  }

  /** Without a slash right before a non-empty trailing digit run, `t` does not end in a slash
      and a number. */
  lemma {:induction false} NoSlashBeforeTrailingDigits(t: string, d: string)
    requires d == TrailingDigits(t)
    requires !(0 < |d| < |t| && t[|t| - |d| - 1] == '/')
    ensures forall k :: !SlashNumberAt(t, k)
  {
    forall k | SlashNumberAt(t, k)
      ensures false
    {
      TrailingDigitsAfterSlash(t, k);
    }
  }

  /** When `t` ends in a slash and a number, the trailing digit run is exactly that number. */
  lemma {:induction false} TrailingDigitsAfterSlash(t: string, k: int)
    requires SlashNumberAt(t, k)
    ensures |TrailingDigits(t)| == |t| - k - 1
  {
  }
}

=== FILE: text.dfy ===
/** String primitives the scraper relies on: prefix tests, substring tests, ASCII digit runs,
    Python's whitespace class, decimal conversion in both directions and newline joining. */
module Text {

  predicate IsDigit(c: char) {
    '0' <= c <= '9'
  }

  predicate AllDigits(s: string) {
    forall i :: 0 <= i < |s| ==> IsDigit(s[i])
  }

  /** Python's `s.startswith(p)`. */
  predicate StartsWith(s: string, p: string) {
    |p| <= |s| && s[..|p|] == p
  }

  /** `p` occurs in `s` starting at index `i`. */
  predicate OccursAt(s: string, p: string, i: int) {
    0 <= i && i + |p| <= |s| && s[i..i + |p|] == p
  }

  /** Python's `p in s` for strings. */
  predicate Contains(s: string, p: string) {
    exists i :: 0 <= i <= |s| - |p| && OccursAt(s, p, i)
  }

  /** The characters Python's `str.isspace` (and so the regular-expression class `\s`) accepts. */
  predicate IsSpace(c: char) {
    || '\t' <= c <= '\r'
    || '\U{1C}' <= c <= '\U{1F}'
    || c == ' ' || c == '\U{85}' || c == '\U{A0}' || c == '\U{1680}'
    || '\U{2000}' <= c <= '\U{200A}'
    || c == '\U{2028}' || c == '\U{2029}' || c == '\U{202F}' || c == '\U{205F}' || c == '\U{3000}'
  }

  /** The longest run of digits that `s` starts with (what a greedy `\d+` or `\d*` consumes). */
  function LeadingDigits(s: string): (d: string)
    ensures AllDigits(d)
    ensures StartsWith(s, d)
    ensures |d| < |s| ==> !IsDigit(s[|d|])
  {
    if |s| > 0 && IsDigit(s[0]) then [s[0]] + LeadingDigits(s[1..]) else ""
  }

  /** The longest run of whitespace that `s` starts with (what a greedy `\s*` consumes). */
  function LeadingSpaces(s: string): (w: string)
    ensures forall i :: 0 <= i < |w| ==> IsSpace(w[i])
    ensures StartsWith(s, w)
    ensures |w| < |s| ==> !IsSpace(s[|w|])
  {
    if |s| > 0 && IsSpace(s[0]) then [s[0]] + LeadingSpaces(s[1..]) else ""
  }

  /** The longest run of digits that `s` ends with. */
  function TrailingDigits(s: string): (d: string)
    ensures AllDigits(d)
    ensures |d| <= |s| && s[|s| - |d|..] == d
    ensures |d| < |s| ==> !IsDigit(s[|s| - |d| - 1])
  {
    if |s| > 0 && IsDigit(s[|s| - 1]) then TrailingDigits(s[..|s| - 1]) + [s[|s| - 1]] else ""
  }

  /** A digit run followed by a non-digit (or by nothing) is exactly what `LeadingDigits` takes. */
  lemma {:induction false} LeadingDigitsOfConcat(d: string, t: string)
    requires AllDigits(d)
    requires |t| == 0 || !IsDigit(t[0])
    ensures LeadingDigits(d + t) == d
  {
    if |d| > 0 {
      assert (d + t)[1..] == d[1..] + t;
      LeadingDigitsOfConcat(d[1..], t);
    } else {
      assert d + t == t;
    }
  }

  /** Whitespace followed by a non-space (or by nothing) is exactly what `LeadingSpaces` takes. */
  lemma {:induction false} LeadingSpacesOfConcat(w: string, t: string)
    requires forall i :: 0 <= i < |w| ==> IsSpace(w[i])
    requires |t| == 0 || !IsSpace(t[0])
    ensures LeadingSpaces(w + t) == w
  {
    if |w| > 0 {
      assert (w + t)[1..] == w[1..] + t;
      LeadingSpacesOfConcat(w[1..], t);
    } else {
      assert w + t == t;
    }
  }

  function DigitChar(d: nat): (c: char)
    requires d < 10
    ensures IsDigit(c)
  {
    (48 + d) as char
  }

  function DigitValue(c: char): (d: nat)
    requires IsDigit(c)
    ensures d < 10 && DigitChar(d) == c
  {
    (c as int) - 48
  }

  /** Python's `str(n)` for a non-negative integer: shortest decimal numeral, no leading zero. */
  function Decimal(n: nat): (s: string)
    ensures |s| >= 1 && AllDigits(s)
    ensures |s| > 1 ==> s[0] != '0'
  {
    if n < 10 then [DigitChar(n)] else Decimal(n / 10) + [DigitChar(n % 10)]
  }

  /** Python's `int(s)` on a string of ASCII digits (leading zeros allowed). */
  function ParseDecimal(s: string): nat
    requires AllDigits(s)
  {
    if |s| == 0 then 0 else ParseDecimal(s[..|s| - 1]) * 10 + DigitValue(s[|s| - 1])
  }

  /** Parsing what `Decimal` prints gives the number back. */
  lemma {:induction false} ParseDecimalOfDecimal(n: nat)
    ensures ParseDecimal(Decimal(n)) == n
  {
    var s := Decimal(n);
    if n >= 10 {
      assert s[..|s| - 1] == Decimal(n / 10);
      ParseDecimalOfDecimal(n / 10);
    }
  }

  /** Printing what `ParseDecimal` reads gives the numeral back when it has no leading zero. */
  lemma {:induction false} DecimalOfParseDecimal(s: string)
    requires |s| >= 1 && AllDigits(s)
    requires |s| > 1 ==> s[0] != '0'
    ensures Decimal(ParseDecimal(s)) == s
  {
    var init := s[..|s| - 1];
    if |s| > 1 {
      assert init[0] == s[0];
      DecimalOfParseDecimal(init);
      PositiveWithoutLeadingZero(init);
      assert s == init + [s[|s| - 1]];
    }
  }

  lemma {:induction false} PositiveWithoutLeadingZero(s: string)
    requires |s| >= 1 && AllDigits(s) && s[0] != '0'
    ensures ParseDecimal(s) >= 1
  {
    if |s| > 1 {
      assert s[..|s| - 1][0] == s[0];
      PositiveWithoutLeadingZero(s[..|s| - 1]);
    }
  }

  /** Python's `"\n".join(parts)`. */
  function JoinLines(parts: seq<string>): (r: string)
    ensures |parts| == 1 ==> r == parts[0]
    ensures |r| >= |parts| - 1
    ensures r == "" <==> |parts| == 0 || (|parts| == 1 && parts[0] == "")
  {
    if |parts| == 0 then ""
    else if |parts| == 1 then parts[0]
    else parts[0] + "\n" + JoinLines(parts[1..])
  }

  /** Python's `s.split("\n")`: the pieces between newlines, at least one. */
  function SplitLines(s: string): (r: seq<string>)
    ensures |r| >= 1
    ensures (forall i :: 0 <= i < |s| ==> s[i] != '\n') ==> r == [s]
  {
    if |s| == 0 then [""]
    else
      var rest := SplitLines(s[1..]);
      if s[0] == '\n' then [""] + rest
      else
        assert [s[0]] + s[1..] == s;
        assert forall i :: 0 <= i < |s| - 1 ==> s[1..][i] == s[i + 1];
        [[s[0]] + rest[0]] + rest[1..]
  }

  /** Splitting at a newline after a newline-free line yields that line first. */
  lemma {:induction false} SplitAfterLine(line: string, more: string)
    requires forall i :: 0 <= i < |line| ==> line[i] != '\n'
    ensures SplitLines(line + "\n" + more) == [line] + SplitLines(more)
    decreases |line|
  {
    if |line| == 0 {
      assert line + "\n" + more == "\n" + more;
      assert ("\n" + more)[1..] == more;
    } else {
      SplitAfterLine(line[1..], more);
      assert (line + "\n" + more)[1..] == line[1..] + "\n" + more;
      assert [line[0]] + line[1..] == line;
    }
  }

  /** Joining newline-free lines and splitting the result gives the lines back. */
  lemma {:induction false} SplitJoinLines(parts: seq<string>)
    requires |parts| >= 1
    requires forall k, i :: 0 <= k < |parts| && 0 <= i < |parts[k]| ==> parts[k][i] != '\n'
    ensures SplitLines(JoinLines(parts)) == parts
  {
    if |parts| > 1 {
      SplitJoinLines(parts[1..]);
      SplitAfterLine(parts[0], JoinLines(parts[1..]));
      assert [parts[0]] + parts[1..] == parts;
    }
  }
}

=== FILE: wrappers.dfy ===
/** Failure-aware values shared by the whole model. */
module Wrappers {

  /** A value that may be missing: a Python `None`, an absent match, an element the page does not have. */
  datatype Option<+T> = None | Some(value: T)

  /** The outcome of a step that either produces a value or raises; the error is the exception's text. */
  datatype Result<+T> = Success(value: T) | Failure(error: string)

  /** What reading one element from the live page gives: no such element, its text, or an exception. */
  datatype Lookup<+T> = Absent | Found(value: T) | Raises(error: string)
}
